=== FILE: README.md ===
# irradiate: a Dafny model of the fault-injection engine

`irradiate.py` injects single-bit faults into the memory of a running
process. It reads the process's memory map and keeps the readable regions.
It then picks a byte, weighted by region size, and inverts one bit of it
through the process's memory file. A failed attempt is retried with fresh
random draws, up to 100 times.

This project models the engine's pure logic, with every random draw and
every I/O outcome passed in as a parameter:

- `Hex` covers lower-case hex digit strings, their value (`int(s, 16)`) and
  the kernel's zero-padded formatting.
- `MapsParser` matches one memory-map line against the pattern
  `^([0-9a-f]+)\-([0-9a-f]+) (.{4}) `. `ParseLine` is a scanner that returns
  the three capture groups or a `LineFault`. `Matches` states the pattern
  declaratively: the well-formed header is a prefix of the line. The two are
  proved equivalent, so the match is unique.
- `MemRanges` holds `MemRange(start, length)` and the length sums `Total`
  and `Prefix`.
- `RegionEnumerator.Enumerate` turns the lines of a map into the readable
  ranges. It fails on the first line that does not match the pattern.
- `RangeSelector.Select` is the offset-to-address scan of `do_a_flip`.
- `BitFlip.FlipBit` is `v ^ (1 << b)` on a `bv8`.
- `FlipExecutor.DoAFlip` is the retry loop over a memory `map<int, bv8>`.
  The map's keys are the addresses that are currently mapped.

Edge cases of the code that the model records:

- A range's `length` is an `int`. The code never checks that `end > start`,
  so a length may be zero or negative.
- A line that does not match the pattern makes `.groups()` raise an
  `AttributeError`, which nothing catches (irradiate.py:24-27, 80-83). The
  model stops at the enumeration: `Enumerate` returns
  `Err(MalformedLine(index, fault))` for the first bad line.
- With no readable memory the main loop divides by zero at irradiate.py:90
  before any flip. Inside `do_a_flip`, `randrange(0)` raises on every
  attempt, so the call returns `False`. The model states the latter
  (`DoAFlip`, `Total(rs) <= 0 ==> !flipped`).
- In the code, a scan that ran past the last range would leave `target_addr`
  unbound, or holding the value from an earlier attempt. `Select` proves
  that an offset in `[0, Total)` always stops inside the list, even with
  negative lengths, so that path cannot be reached.

## Model

| member | source | states |
|---|---|---|
| Hex.ValueBound | irradiate.py:30 | the value `int(s, 16)` of a string of `k` hex digits is below `16^k` |
| Hex.FormatRoundTrip | irradiate.py:30 | decoding an address printed in lower-case hex, with any number of leading zeros, gives the address back |
| MapsParser.HexRun | irradiate.py:25 | the length of the longest prefix made of `[0-9a-f]` characters: all of them are hex digits and the next character is not |
| MapsParser.HexField | irradiate.py:25 | an accepted `([0-9a-f]+)` group is a non-empty hex string followed by the separator; a failure names either the missing digits or the missing separator |
| MapsParser.PermsField | irradiate.py:25 | an accepted `(.{4}) ` group is four non-newline characters followed by a space |
| MapsParser.HexFieldComplete | irradiate.py:25 | a non-empty hex string followed by a non-hex separator is exactly the group found |
| MapsParser.ParseLine | irradiate.py:24-27 | every accepted line yields well-formed groups: two non-empty hex strings and four non-newline characters |
| MapsParser.ParseLineSound | irradiate.py:24-27 | every accepted line matches the pattern with the returned groups: hex start, `-`, hex end, space, four non-newline characters, space |
| MapsParser.ParseLineComplete | irradiate.py:24-27 | every line that matches the pattern is accepted, with exactly the groups of that match |
| MapsParser.ParseLineRejectsOnlyNonMatching | irradiate.py:24-27 | a rejected line matches the pattern with no groups at all |
| MapsParser.FormatLineRoundTrip | irradiate.py:24-30 | a formatted line `hex(s)-hex(e) perms rest` parses back to `s`, `e` and `perms` |
| MapsParser.NonHexAddressRefused | irradiate.py:24-27 | every line whose first address holds a character that is neither a hex digit nor `-`, with no `-` before it, is refused, for a missing start address or a missing `-` |
| MapsParser.MissingDashRefused | irradiate.py:24-27 | every line made of a hex address followed by anything but a hex digit or `-` is refused for the missing `-` |
| MapsParser.UnterminatedPermissionsRefused | irradiate.py:24-27 | every line `start-end perms` whose four permission characters are not followed by a space is refused for that missing space, whatever follows |
| MemRanges.TotalBoundsLengths | irradiate.py:38 | with non-negative lengths, `sum(r.length for r in ranges)` is non-negative and at least every single range's length |
| MemRanges.PrefixStep | irradiate.py:38 | each prefix sum of the lengths adds exactly the next range's length |
| MemRanges.PrefixMonotone | irradiate.py:38 | with non-negative lengths the prefix sums never decrease |
| RegionEnumerator.IsReadable | irradiate.py:28 | a region is kept exactly when its permission string starts with `r` |
| RegionEnumerator.ToRange | irradiate.py:30-34 | the range starts at the value of the first hex field and ends at the value of the second; its length is positive exactly when the end lies above the start |
| RegionEnumerator.ParseLines | irradiate.py:23-27 | one match result per line, in order, each the result of matching that line; every successful match has well-formed groups |
| RegionEnumerator.Collect | irradiate.py:23-35 | a successful walk has at most one range per line; a failure names a line that exists |
| RegionEnumerator.CollectFailsAtFirstError | irradiate.py:23-27 | the walk fails exactly when some match failed, and reports the first failure with its fault |
| RegionEnumerator.CollectKeepsReadableInOrder | irradiate.py:28-34 | a successful walk holds one range per readable match, in order, each converted by `MemRange(start, end - start)` |
| RegionEnumerator.ReadableIndices | irradiate.py:28-29 | the positions of the successful matches whose permissions start with `r`, strictly increasing, and every such position is listed |
| RegionEnumerator.ReadableLines | irradiate.py:23-29 | the positions of the lines that match and whose permissions start with `r`, strictly increasing, and every such line is listed |
| RegionEnumerator.Enumerate | irradiate.py:20-35 | a successful enumeration means every line matched, with at most one range per line; a failure names an existing line whose match failed, with that match's fault |
| RegionEnumerator.EnumerateFailsAtFirstMalformed | irradiate.py:23-27 | enumeration fails exactly when some line does not match; the error names the first such line and its fault |
| RegionEnumerator.MalformedLineAborts | irradiate.py:23-27 | a non-matching line anywhere aborts the whole enumeration instead of being skipped |
| RegionEnumerator.EnumerateKeepsReadableInOrder | irradiate.py:23-34 | the result has one range per readable line, in input order, each with start equal to the first hex field and length equal to end minus start |
| RangeSelector.Select | irradiate.py:42-48 | for an offset in `[0, total)` the scan stops at the first range whose cumulative length exceeds the offset; the address is that range's start plus the offset left over, and lies in `[start, start + length)` of that range |
| RangeSelector.SelectIndexIff | irradiate.py:38-48 | with non-negative lengths, range `i` is selected exactly for offsets in an interval of `length(i)` values, so selection is weighted by length |
| RangeSelector.IntervalsDisjoint | irradiate.py:38-48 | with non-negative lengths, no offset lies in the intervals of two different ranges |
| RangeSelector.OffsetIntervalsPartition | irradiate.py:38-48 | with non-negative lengths the intervals `[Prefix(i), Prefix(i + 1))` run from 0 to `sum(r.length ...)`, and every drawn offset lies in exactly one of them, the one the scan stops at |
| RangeSelector.TwoRangeExample | irradiate.py:42-48 | ranges (0,10) and (100,5): offset 7 selects address 7 and offset 12 selects address 102 |
| BitFlip.FlipBit | irradiate.py:52 | the result differs from the byte in bit `b` and agrees with it in every other bit |
| BitFlip.FlipBitInvolution | irradiate.py:52 | flipping the same bit twice gives the byte back |
| BitFlip.FlipBitChanges | irradiate.py:52 | a flip always changes the byte |
| FlipExecutor.FlipAt | irradiate.py:50-54 | the read-modify-write changes only the byte at the target address, in exactly the chosen bit; the set of mapped addresses is unchanged |
| FlipExecutor.TryFlip | irradiate.py:41-56 | an attempt flips exactly when there is readable memory, the selected address is mapped and the I/O succeeds; a successful attempt flips exactly the selected address in the drawn bit; a failure is no readable memory exactly when the total length is not positive, and any other failure names the selected address |
| FlipExecutor.DoAFlip | irradiate.py:37-61 | makes between 1 and 100 attempts; returns true at the first attempt that can succeed, with only the byte at its address changed, in exactly the drawn bit, and that address inside the selected range; returns false after exactly 100 failed attempts with memory unchanged; never flips when the total length is not positive |
| FlipExecutor.FlipAtInvolution | irradiate.py:50-54 | repeating the same flip restores the memory |
| FlipExecutor.EmptyRangesNeverFlip | irradiate.py:38-42 | with no ranges every attempt fails with no readable memory |

## Left out

- Reading the memory map and opening, seeking, reading and writing the memory file (irradiate.py:22, 50-54, 105) are OS file I/O. The map's lines are a parameter. The memory is a map from mapped addresses to bytes, and the outcome of the I/O is a flag on each draw.
- FlipExecutor.FlipAt: each call works on one snapshot of the target's memory, and the read at irradiate.py:50-51 and the write at irradiate.py:53-54 form one atomic step. The target keeps running, so a store it makes to that byte between the two is overwritten; and `mem.read(1)` on the buffered handle (irradiate.py:105) may be answered from an earlier read-ahead, so `initial_val` may be stale. Neither the target's own stores nor the read-ahead buffer is modelled: the frame condition holds relative to the byte as read, not to the byte the target holds when the write lands.
- FlipExecutor.DoAFlip: a `True` result is modelled as the byte being written at once. The memory file is opened buffered (`open(..., "wb+")`, irradiate.py:105), so `mem.write` (irradiate.py:54) may only fill the buffer and return `True`. A deferred write that fails at a later `mem.seek` (irradiate.py:50) is caught by the bare `except:` (irradiate.py:57) and counted as a failed attempt of that later flip; a failed flush leaves the buffer dirty, so every later seek outside the buffered window fails the same way until the `with` block closes; only a failure at the close reaches `except IOError` (irradiate.py:113). The model has no buffer: these later failures appear only as draws whose I/O flag is false.
- The "target process not found" condition (`FileNotFoundError`, irradiate.py:81-83, 110-112) comes from opening a file and is not modelled.
- The target changing its own mappings while the flips run (irradiate.py:105-107) is external concurrency. It appears only as an attempt whose I/O flag is false.
- The random source (irradiate.py:42-43, 100) is replaced by explicit draws. `ValidDraws` states what `randrange` can return.
- The rate scheduler (irradiate.py:76, 85-102) is left out. It covers flips per second, `MIN_INTERVAL`, the batch count and the exponential delay `-interval * log(U)`, all floating-point arithmetic on random values.
- The division by zero when no readable memory is found (irradiate.py:90) is part of the scheduler and is not modelled.
- The `__main__` loop (irradiate.py:64-114) is left out. This covers its exception-based exit, `time.sleep`, the batch of `flip_count` calls, argument handling and logging (irradiate.py:12-13, 49, 55, 58, 60).
- example_target.py is a demo victim process made of random bytes, hashing and sleeping. It is not part of this model.

=== FILE: bit_flip.dfy ===
/** `initial_val ^ (1 << bit_idx)` (irradiate.py:43, 52) on one byte. */
module BitFlip {

  /** Bit `j` of `v` is set. */
  predicate Bit(v: bv8, j: nat)
    requires j < 8
  {
    (v >> j) & 1 == 1
  }

  /** The byte with bit `b` inverted; the result is again a byte (`bv8`), so
      `bytes([flipped_val])` cannot fail. */
  function FlipBit(v: bv8, b: nat): (r: bv8)
    requires b < 8
    ensures forall j :: 0 <= j < 8 ==> (Bit(r, j) <==> (Bit(v, j) != (j == b)))
  {
    v ^ ((1 as bv8) << b)
  }

  /** Flipping the same bit twice gives the byte back. */
  lemma FlipBitInvolution(v: bv8, b: nat)
    requires b < 8
    ensures FlipBit(FlipBit(v, b), b) == v
  {
  }

  /** A flip always changes the byte. */
  lemma FlipBitChanges(v: bv8, b: nat)
    requires b < 8
    ensures FlipBit(v, b) != v
  {
  }
}

=== FILE: flip_executor.dfy ===
/** `do_a_flip` (irradiate.py:37-61): up to `MAX_FLIP_RETRIES` attempts, each
    drawing an offset and a bit, locating the address, reading the byte and
    writing it back with that bit inverted. The random draws, and whether the
    target's memory handle let the read and write through, are parameters;
    the target's memory is a map whose keys are the addresses currently mapped. */
module FlipExecutor {
  import opened MemRanges
  import opened RangeSelector
  import opened BitFlip

  /** `MAX_FLIP_RETRIES` (irradiate.py:39). */
  const MaxFlipRetries: nat := 100

  /** The target's address space: the addresses that can be read and written. */
  type Memory = map<int, bv8>

  /** One attempt's inputs: `randrange(range_total)`, `randrange(8)`, and
      whether the handle's seek, read and write all went through (`false`
      stands for a transient I/O error or the target unmapping the page). */
  datatype Draw = Draw(offset: int, bit: int, ioOk: bool)

  /** What the random source can return: a bit in `[0, 8)` and, when there
      is readable memory, an offset in `[0, total)`. */
  predicate ValidDraw(d: Draw, total: int) {
    0 <= d.bit < 8 && (total > 0 ==> 0 <= d.offset < total)
  }

  predicate ValidDraws(draws: seq<Draw>, total: int) {
    forall k :: 0 <= k < |draws| ==> ValidDraw(draws[k], total)
  }

  /** Why an attempt failed; the code catches every exception alike. */
  datatype AttemptFault =
    | NoReadableMemory       // `randrange(0)` (or of a negative total) raises
    | Unmapped(address: int) // seeking or reading outside the mapped memory
    | IoFailure(address: int)

  datatype Attempt =
    | Flipped(address: int, bit: nat)
    | Failed(fault: AttemptFault)

  /** The address an attempt aims at. */
  function TargetAddress(rs: seq<MemRange>, d: Draw): (addr: int)
    requires 0 <= d.offset < Total(rs)
  {
    Select(rs, d.offset).address
  }

  /** An attempt goes through: there is readable memory to draw from, the
      address it lands on is mapped, and the I/O succeeds. */
  predicate Succeeds(mem: Memory, rs: seq<MemRange>, d: Draw)
    requires ValidDraw(d, Total(rs))
  {
    Total(rs) > 0 && TargetAddress(rs, d) in mem && d.ioOk
  }

  /** The read-modify-write at one address: only that byte changes, and it
      changes in exactly the chosen bit. */
  function FlipAt(mem: Memory, addr: int, b: nat): (m: Memory)
    requires addr in mem && b < 8
    ensures m.Keys == mem.Keys
    ensures forall j :: 0 <= j < 8 ==> (Bit(m[addr], j) <==> (Bit(mem[addr], j) != (j == b)))
    ensures forall a :: a in mem && a != addr ==> m[a] == mem[a]
  {
    mem[addr := FlipBit(mem[addr], b)]
  }

  /** One pass of the `try` block, up to the point where it would write. */
  function TryFlip(mem: Memory, rs: seq<MemRange>, d: Draw): (a: Attempt)
    requires ValidDraw(d, Total(rs))
    ensures a.Flipped? <==> Succeeds(mem, rs, d)
    ensures a.Flipped? ==> a.address in mem && a.bit < 8
    ensures a.Flipped? ==> a == Flipped(TargetAddress(rs, d), d.bit as nat)
    ensures a.Failed? && a.fault.NoReadableMemory? <==> Total(rs) <= 0
    ensures a.Failed? && !a.fault.NoReadableMemory? ==> a.fault.address == TargetAddress(rs, d)
  {
    if Total(rs) <= 0 then Failed(NoReadableMemory)
    else
      var addr := TargetAddress(rs, d);
      if addr !in mem then Failed(Unmapped(addr))
      else if !d.ioOk then Failed(IoFailure(addr))
      else Flipped(addr, d.bit as nat)
  }

  /** Attempts in order until one goes through or the budget is spent.
      Returns whether a bit was flipped, the memory afterwards and how many
      attempts were made. */
  method DoAFlip(mem: Memory, rs: seq<MemRange>, draws: seq<Draw>)
    returns (flipped: bool, mem': Memory, attempts: nat)
    requires |draws| >= MaxFlipRetries
    requires ValidDraws(draws, Total(rs))
    ensures 1 <= attempts <= MaxFlipRetries
    ensures forall k :: 0 <= k < attempts - 1 ==> !Succeeds(mem, rs, draws[k])
    ensures flipped <==> exists k :: 0 <= k < MaxFlipRetries && Succeeds(mem, rs, draws[k])
    ensures flipped ==>
              var d := draws[attempts - 1];
              && Succeeds(mem, rs, d)
              && var t := Select(rs, d.offset);
              && var addr := TargetAddress(rs, d);
              && rs[t.index].start <= addr < rs[t.index].start + rs[t.index].length
              && mem'.Keys == mem.Keys
              && mem'[addr] == FlipBit(mem[addr], d.bit as nat)
              && forall a :: a in mem && a != addr ==> mem'[a] == mem[a]
    ensures !flipped ==> attempts == MaxFlipRetries && mem' == mem
    ensures Total(rs) <= 0 ==> !flipped
  {
    var k := 0;
    while k < MaxFlipRetries
      invariant 0 <= k <= MaxFlipRetries
      invariant forall j :: 0 <= j < k ==> !Succeeds(mem, rs, draws[j])
    {
      var a := TryFlip(mem, rs, draws[k]);
      if a.Flipped? {
        return true, FlipAt(mem, a.address, a.bit), k + 1;
      }
      k := k + 1;
    }
    return false, mem, MaxFlipRetries;
  }

  /** Flipping the same bit at the same address twice restores the memory. */
  lemma FlipAtInvolution(mem: Memory, addr: int, b: nat)
    requires addr in mem && b < 8
    ensures FlipAt(FlipAt(mem, addr, b), addr, b) == mem
  {
  }

  /** With no ranges there is nothing to draw from: every attempt fails. */
  lemma EmptyRangesNeverFlip(mem: Memory, d: Draw)
    requires ValidDraw(d, Total([]))
    ensures TryFlip(mem, [], d) == Failed(NoReadableMemory)
  {
  }
}

=== FILE: hex.dfy ===
/** Lower-case hexadecimal digit strings: the address notation of a process
    memory map, and Python's `int(s, 16)` restricted to such strings. */
module Hex {

  /** The characters of the class `[0-9a-f]`. */
  predicate IsHexDigit(c: char) {
    ('0' <= c <= '9') || ('a' <= c <= 'f')
  }

  predicate IsHexString(s: string) {
    forall i :: 0 <= i < |s| ==> IsHexDigit(s[i])
  }

  function DigitValue(c: char): (d: nat)
    requires IsHexDigit(c)
    ensures d < 16
  {
    if '0' <= c <= '9' then c as nat - '0' as nat else 10 + (c as nat - 'a' as nat)
  }

  function DigitChar(d: nat): (c: char)
    requires d < 16
    ensures IsHexDigit(c) && DigitValue(c) == d
  {
    if d < 10 then ('0' as nat + d) as char else ('a' as nat + (d - 10)) as char
  }

  /** The number a string of hex digits denotes, most significant digit first. */
  function Value(s: string): (v: nat)
    requires IsHexString(s)
    decreases |s|
  {
    if |s| == 0 then 0 else 16 * Value(s[..|s| - 1]) + DigitValue(s[|s| - 1])
  }

  /** `16^k`: one more than the largest value of `k` hex digits. */
  function Pow16(k: nat): (p: nat)
    ensures p > 0
  {
    if k == 0 then 1 else 16 * Pow16(k - 1)
  }

  /** The shortest digit string of `n` (`"0"` for zero). */
  function Digits(n: nat): (s: string)
    ensures |s| > 0 && IsHexString(s)
    decreases n
  {
    if n < 16 then [DigitChar(n)] else Digits(n / 16) + [DigitChar(n % 16)]
  }

  /** `n` in hex, left-padded with zeros to at least `width` digits, as the
      kernel prints the addresses of a memory map. */
  function Format(n: nat, width: nat): (s: string)
    ensures |s| > 0 && IsHexString(s)
  {
    var d := Digits(n);
    if |d| >= width then d else seq(width - |d|, _ => '0') + d
  }

  /** `k` hex digits denote a number below `16^k`. */
  lemma {:induction false} ValueBound(s: string)
    requires IsHexString(s)
    ensures Value(s) < Pow16(|s|)
    decreases |s|
  {
    if |s| > 0 {
      var init := s[..|s| - 1];
      ValueBound(init);
      assert 16 * Value(init) <= 16 * (Pow16(|init|) - 1);
    }
  }

  lemma {:induction false} DigitsRoundTrip(n: nat)
    ensures Value(Digits(n)) == n
    decreases n
  {
    if n >= 16 {
      DigitsRoundTrip(n / 16);
      var s := Digits(n);
      assert s[..|s| - 1] == Digits(n / 16);
    }
  }

  /** Leading zeros do not change the value. */
  lemma {:induction false} LeadingZeros(k: nat, s: string)
    requires IsHexString(s)
    ensures IsHexString(seq(k, _ => '0') + s)
    ensures Value(seq(k, _ => '0') + s) == Value(s)
    decreases |s|
  {
    var z: string := seq(k, _ => '0');
    if |s| == 0 {
      assert z + s == z;
      ZerosValue(k);
    } else {
      var init := s[..|s| - 1];
      LeadingZeros(k, init);
      assert (z + s)[..|z + s| - 1] == z + init;
    }
  }

  lemma {:induction false} ZerosValue(k: nat)
    ensures IsHexString(seq(k, _ => '0'))
    ensures Value(seq(k, _ => '0')) == 0
    decreases k
  {
    if k > 0 {
      var z: string := seq(k, _ => '0');
      assert z[..k - 1] == seq(k - 1, _ => '0');
      ZerosValue(k - 1);
    }
  }

  /** Formatting and then decoding an address gives the address back, whatever
      the padding width. */
  lemma FormatRoundTrip(n: nat, width: nat)
    ensures Value(Format(n, width)) == n
  {
    DigitsRoundTrip(n);
    var d := Digits(n);
    if |d| < width {
      var z: string := seq(width - |d|, _ => '0');
      assert Format(n, width) == z + d;
      LeadingZeros(width - |d|, d);
    } else {
      assert Format(n, width) == d;
    }
  }
}

=== FILE: maps_parser.dfy ===
/** One line of a process memory map, matched against the pattern
    `^([0-9a-f]+)\-([0-9a-f]+) (.{4}) ` the way `enumerate_readable_ranges`
    (irradiate.py:24-27) matches it. The pattern has exactly one way to match:
    each hex run is followed by a character that is not a hex digit (`-`,
    then a space), so the greedy runs are the maximal ones. The parser below
    scans for them and `Matches` states the pattern declaratively. */
module MapsParser {
  import opened Results
  import opened Hex

  /** The three capture groups of the pattern, still as text. */
  datatype MapsFields = MapsFields(startHex: string, endHex: string, perms: string)

  /** Why a line does not match the pattern; the code has only the failed
      match (and the `AttributeError` it causes), the kind is kept for
      diagnostics. `MissingDash` and `MissingSpaceAfterAddresses` name the
      character that ends a hex run: any non-hex character there (a `g`, an
      upper-case digit) is reported as the separator that should have been. */
  datatype LineFault =
    | BadStartAddress
    | MissingDash
    | BadEndAddress
    | MissingSpaceAfterAddresses
    | BadPermissions
    | MissingSpaceAfterPermissions

  /** The class `.` of the pattern: every character except a newline. */
  predicate IsPermChar(c: char) {
    c != '\n'
  }

  /** Well-formed groups: two non-empty hex runs and four non-newline characters. */
  predicate WellFormed(f: MapsFields) {
    && |f.startHex| > 0 && IsHexString(f.startHex)
    && |f.endHex| > 0 && IsHexString(f.endHex)
    && |f.perms| == 4
    && forall i :: 0 <= i < 4 ==> IsPermChar(f.perms[i])
  }

  /** The text the pattern consumes for given groups. */
  function Header(f: MapsFields): string {
    (f.startHex + "-") + ((f.endHex + " ") + (f.perms + " "))
  }

  /** `line` matches the pattern with groups `f`: the header is a prefix of the
      line; whatever follows it is ignored. */
  predicate Matches(line: string, f: MapsFields) {
    WellFormed(f) && Header(f) <= line
  }

  /** Length of the longest prefix of `s` made of hex digits. */
  function HexRun(s: string): (n: nat)
    ensures n <= |s|
    ensures IsHexString(s[..n])
    ensures n < |s| ==> !IsHexDigit(s[n])
    decreases |s|
  {
    if |s| == 0 || !IsHexDigit(s[0]) then 0 else 1 + HexRun(s[1..])
  }

  /** `([0-9a-f]+)` followed by `sep`: the group, or which of the two is missing. */
  function HexField(s: string, sep: char, noDigits: LineFault, noSep: LineFault): (r: Result<string, LineFault>)
    ensures r.Ok? ==> |r.value| > 0 && IsHexString(r.value) && r.value + [sep] <= s
    ensures r.Err? ==> r.error in {noDigits, noSep}
  {
    var n := HexRun(s);
    if n == 0 then Err(noDigits)
    else if n == |s| || s[n] != sep then Err(noSep)
    else Ok(s[..n])
  }

  /** `(.{4}) `: four characters other than a newline, then a space. */
  function PermsField(s: string): (r: Result<string, LineFault>)
    ensures r.Ok? ==> |r.value| == 4 && (forall i :: 0 <= i < 4 ==> IsPermChar(r.value[i])) && r.value + " " <= s
  {
    if |s| < 4 || !IsPermChar(s[0]) || !IsPermChar(s[1]) || !IsPermChar(s[2]) || !IsPermChar(s[3]) then
      Err(BadPermissions)
    else if |s| == 4 || s[4] != ' ' then Err(MissingSpaceAfterPermissions)
    else Ok(s[..4])
  }

  /** Match one line: the three groups, or where the match broke off. */
  function ParseLine(line: string): (r: Result<MapsFields, LineFault>)
    ensures r.Ok? ==> WellFormed(r.value)
  {
    var startHex :- HexField(line, '-', BadStartAddress, MissingDash);
    var afterStart := line[|startHex| + 1..];
    var endHex :- HexField(afterStart, ' ', BadEndAddress, MissingSpaceAfterAddresses);
    var perms :- PermsField(afterStart[|endHex| + 1..]);
    Ok(MapsFields(startHex, endHex, perms))
  }

  /** `a + b` starts `s` exactly when `a` does and `b` starts the rest. */
  lemma PrefixSplit(a: string, b: string, s: string)
    ensures a + b <= s <==> a <= s && b <= s[|a|..]
  {
  }

  /** A hex group followed by a separator that is not a hex digit is found
      by `HexField`. */
  lemma HexFieldComplete(s: string, sep: char, h: string, noDigits: LineFault, noSep: LineFault)
    requires |h| > 0 && IsHexString(h) && !IsHexDigit(sep) && h + [sep] <= s
    ensures HexField(s, sep, noDigits, noSep) == Ok(h)
  {
    assert (h + [sep])[|h|] == s[|h|];
    assert s[..|h|] == h;
  }

  lemma PermsFieldComplete(s: string, p: string)
    requires |p| == 4 && (forall i :: 0 <= i < 4 ==> IsPermChar(p[i])) && p + " " <= s
    ensures PermsField(s) == Ok(p)
  {
    assert (p + " ")[4] == s[4];
    assert s[..4] == p;
  }

  /** Whatever `ParseLine` accepts matches the pattern with the groups it returns. */
  lemma ParseLineSound(line: string)
    requires ParseLine(line).Ok?
    ensures Matches(line, ParseLine(line).value)
  {
  }

  /** Every line that matches the pattern is accepted, with exactly the groups
      of that match; so the match is unique. */
  lemma ParseLineComplete(line: string, f: MapsFields)
    requires Matches(line, f)
    ensures ParseLine(line) == Ok(f)
  {
    var afterStart := StartFieldFound(line, f);
    var tail := EndFieldFound(afterStart, f);
    PermsFieldComplete(tail, f.perms);
  }

  /** First step of a match: the start group is found, and the rest of the
      header follows the dash. */
  lemma StartFieldFound(line: string, f: MapsFields) returns (afterStart: string)
    requires Matches(line, f)
    ensures HexField(line, '-', BadStartAddress, MissingDash) == Ok(f.startHex)
    ensures afterStart == line[|f.startHex| + 1..]
    ensures (f.endHex + " ") + (f.perms + " ") <= afterStart
  {
    PrefixSplit(f.startHex + "-", (f.endHex + " ") + (f.perms + " "), line);
    HexFieldComplete(line, '-', f.startHex, BadStartAddress, MissingDash);
    afterStart := line[|f.startHex| + 1..];
  }

  /** Second step of a match: the end group is found, and the permission
      group follows the space. */
  lemma EndFieldFound(afterStart: string, f: MapsFields) returns (tail: string)
    requires WellFormed(f)
    requires (f.endHex + " ") + (f.perms + " ") <= afterStart
    ensures HexField(afterStart, ' ', BadEndAddress, MissingSpaceAfterAddresses) == Ok(f.endHex)
    ensures tail == afterStart[|f.endHex| + 1..]
    ensures f.perms + " " <= tail
  {
    PrefixSplit(f.endHex + " ", f.perms + " ", afterStart);
    HexFieldComplete(afterStart, ' ', f.endHex, BadEndAddress, MissingSpaceAfterAddresses);
    tail := afterStart[|f.endHex| + 1..];
  }

  /** A rejected line does not match the pattern in any way. */
  lemma ParseLineRejectsOnlyNonMatching(line: string)
    requires ParseLine(line).Err?
    ensures forall f :: !Matches(line, f)
  {
    forall f | Matches(line, f)
      ensures false
    {
      ParseLineComplete(line, f);
    }
  }

  /** A line as the kernel prints it: start and end in lower-case hex (zero
      padded to `width`), the permission field, and any rest. */
  function FormatLine(start: nat, end: nat, perms: string, rest: string, width: nat): (line: string) {
    Format(start, width) + "-" + Format(end, width) + " " + perms + " " + rest
  }

  /** Round trip: a formatted line parses back to its start, end and permissions. */
  lemma FormatLineRoundTrip(start: nat, end: nat, perms: string, rest: string, width: nat)
    requires |perms| == 4 && forall i :: 0 <= i < 4 ==> IsPermChar(perms[i])
    ensures ParseLine(FormatLine(start, end, perms, rest, width)).Ok?
    ensures var f := ParseLine(FormatLine(start, end, perms, rest, width)).value;
            Value(f.startHex) == start && Value(f.endHex) == end && f.perms == perms
  {
    var f := MapsFields(Format(start, width), Format(end, width), perms);
    var line := FormatLine(start, end, perms, rest, width);
    assert line == Header(f) + rest;
    PrefixSplit(Header(f), rest, line);
    ParseLineComplete(line, f);
    FormatRoundTrip(start, width);
    FormatRoundTrip(end, width);
  }

  /** A non-empty hex string followed by a non-hex character is the whole run. */
  lemma {:induction false} HexRunOfHexPrefix(h: string, rest: string)
    requires IsHexString(h) && |rest| > 0 && !IsHexDigit(rest[0])
    ensures HexRun(h + rest) == |h|
    decreases |h|
  {
    if |h| > 0 {
      assert (h + rest)[1..] == h[1..] + rest;
      HexRunOfHexPrefix(h[1..], rest);
    } else {
      assert h + rest == rest;
    }
  }

  /** A line whose first address holds a character that is neither a hex
      digit nor the dash, with no dash before it, is refused: the hex run
      stops at or before that character, and what stops it is not the dash. */
  lemma {:induction false} NonHexAddressRefused(line: string, i: nat)
    requires i < |line| && !IsHexDigit(line[i]) && line[i] != '-'
    requires forall j :: 0 <= j < i ==> line[j] != '-'
    ensures ParseLine(line).Err?
    ensures ParseLine(line).error in {BadStartAddress, MissingDash}
  {
    assert HexField(line, '-', BadStartAddress, MissingDash).Err?;
  }

  /** A hex address followed by anything but a hex digit or the dash is
      refused for the missing dash. */
  lemma {:induction false} MissingDashRefused(h: string, rest: string)
    requires |h| > 0 && IsHexString(h)
    requires |rest| > 0 && !IsHexDigit(rest[0]) && rest[0] != '-'
    ensures ParseLine(h + rest) == Err(MissingDash)
  {
    var line := h + rest;
    HexRunOfHexPrefix(h, rest);
    assert line[|h|] == rest[0];
  }

  /** Two addresses and four permission characters that are not followed by
      a space are refused for the missing space, whatever comes after. */
  lemma {:induction false} UnterminatedPermissionsRefused(h: string, e: string, p: string, rest: string)
    requires |h| > 0 && IsHexString(h) && |e| > 0 && IsHexString(e)
    requires |p| == 4 && forall i :: 0 <= i < 4 ==> IsPermChar(p[i])
    requires |rest| == 0 || rest[0] != ' '
    ensures ParseLine(h + "-" + e + " " + p + rest) == Err(MissingSpaceAfterPermissions)
  {
    var line := h + "-" + e + " " + p + rest;
    var mid := (e + " ") + (p + rest);
    assert line == (h + "-") + mid;
    PrefixSplit(h + "-", mid, line);
    HexFieldComplete(line, '-', h, BadStartAddress, MissingDash);
    assert line[|h| + 1..] == mid;
    HexFieldComplete(mid, ' ', e, BadEndAddress, MissingSpaceAfterAddresses);
    assert mid[|e| + 1..] == p + rest;
    PermsFieldUnterminated(p, rest);
  }

  /** Four permission characters not followed by a space lack the space. */
  lemma PermsFieldUnterminated(p: string, rest: string)
    requires |p| == 4 && forall i :: 0 <= i < 4 ==> IsPermChar(p[i])
    requires |rest| == 0 || rest[0] != ' '
    ensures PermsField(p + rest) == Err(MissingSpaceAfterPermissions)
  {
    var tail := p + rest;
    assert tail[0] == p[0] && tail[1] == p[1] && tail[2] == p[2] && tail[3] == p[3];
    assert |tail| > 4 ==> tail[4] == rest[0];
  }
}

=== FILE: mem_ranges.dfy ===
/** `MemRange` (irradiate.py:15-18) and the sums over a list of ranges that
    both the selector and the flip retry loop use. */
module MemRanges {

  /** A span of the target's address space. The code never checks that
      `length` is positive, so it is an `int` here. */
  datatype MemRange = MemRange(start: nat, length: int)

  /** `sum(r.length for r in ranges)`. */
  function Total(rs: seq<MemRange>): (t: int)
    decreases |rs|
  {
    if |rs| == 0 then 0 else rs[0].length + Total(rs[1..])
  }

  /** Sum of the lengths of the first `k` ranges. */
  function Prefix(rs: seq<MemRange>, k: nat): (p: int)
    requires k <= |rs|
  {
    Total(rs[..k])
  }

  predicate NonNegativeLengths(rs: seq<MemRange>) {
    forall i :: 0 <= i < |rs| ==> rs[i].length >= 0
  }

  /** The prefix sums peel off the first range. */
  lemma PrefixCons(rs: seq<MemRange>, k: nat)
    requires 0 < |rs| && k < |rs|
    ensures Prefix(rs, k + 1) == rs[0].length + Prefix(rs[1..], k)
  {
    assert rs[..k + 1][1..] == rs[1..][..k];
  }

  /** Each prefix sum adds one more length. */
  lemma {:induction false} PrefixStep(rs: seq<MemRange>, k: nat)
    requires k < |rs|
    ensures Prefix(rs, k + 1) == Prefix(rs, k) + rs[k].length
    decreases k
  {
    if k == 0 {
      assert rs[..1][1..] == [];
    } else {
      PrefixCons(rs, k);
      PrefixStep(rs[1..], k - 1);
      PrefixCons(rs, k - 1);
    }
  }

  /** The prefix of every range is the total. */
  lemma PrefixAll(rs: seq<MemRange>)
    ensures Prefix(rs, |rs|) == Total(rs)
  {
    assert rs[..|rs|] == rs;
  }

  /** With non-negative lengths the prefix sums never decrease. */
  lemma {:induction false} PrefixMonotone(rs: seq<MemRange>, j: nat, k: nat)
    requires NonNegativeLengths(rs)
    requires j <= k <= |rs|
    ensures Prefix(rs, j) <= Prefix(rs, k)
    decreases k - j
  {
    if j < k {
      PrefixStep(rs, j);
      PrefixMonotone(rs, j + 1, k);
    }
  }

  /** With non-negative lengths the total is non-negative and no single
      range is longer than it. */
  lemma {:induction false} TotalBoundsLengths(rs: seq<MemRange>)
    requires NonNegativeLengths(rs)
    ensures Total(rs) >= 0
    ensures forall i :: 0 <= i < |rs| ==> rs[i].length <= Total(rs)
    decreases |rs|
  {
    if |rs| > 0 {
      TotalBoundsLengths(rs[1..]);
      assert forall i :: 1 <= i < |rs| ==> rs[i] == rs[1..][i - 1];
    }
  }
}

=== FILE: range_selector.dfy ===
/** The offset-to-address scan of `do_a_flip` (irradiate.py:38, 42-48): an
    offset drawn from `[0, total)` walks the ranges in order, losing each
    range's length until it fits inside one. The draw itself is a parameter. */
module RangeSelector {
  import opened MemRanges

  /** Where the scan stopped: the range's position and the absolute address. */
  datatype Target = Target(index: nat, address: int)

  /** The scan. The address lies in the range where it stopped, and that
      range is the first whose cumulative length exceeds the offset.
      `0 <= offset < Total(rs)` is what `random.randrange(range_total)`
      delivers; under it the scan always stops inside the list, whatever the
      signs of the lengths, so the loop never falls through. */
  function Select(rs: seq<MemRange>, offset: int): (t: Target)
    requires 0 <= offset < Total(rs)
    ensures t.index < |rs|
    ensures forall k :: 0 <= k <= t.index ==> Prefix(rs, k) <= offset
    ensures offset < Prefix(rs, t.index + 1)
    ensures t.address == rs[t.index].start + (offset - Prefix(rs, t.index))
    ensures rs[t.index].start <= t.address < rs[t.index].start + rs[t.index].length
    decreases |rs|
  {
    PrefixCons(rs, 0);
    if offset < rs[0].length then
      Target(0, rs[0].start + offset)
    else
      var t := Select(rs[1..], offset - rs[0].length);
      PrefixCons(rs, t.index + 1);
      ShiftedPrefixes(rs, t.index + 1);
      Target(t.index + 1, t.address)
  }

  /** Every prefix of `rs` past the first range is that range plus a prefix of the rest. */
  lemma ShiftedPrefixes(rs: seq<MemRange>, n: nat)
    requires 0 < n <= |rs|
    ensures forall k :: 1 <= k <= n ==> Prefix(rs, k) == rs[0].length + Prefix(rs[1..], k - 1)
  {
    forall k | 1 <= k <= n {
      PrefixCons(rs, k - 1);
    }
  }

  /** Weighting: with non-negative lengths, the offsets that select range `i`
      are exactly those in `[Prefix(i), Prefix(i + 1))`, an interval of
      `rs[i].length` offsets, so a uniform offset picks range `i` with
      probability `rs[i].length / Total(rs)`. */
  lemma SelectIndexIff(rs: seq<MemRange>, offset: int, i: nat)
    requires NonNegativeLengths(rs)
    requires 0 <= offset < Total(rs) && i < |rs|
    ensures Select(rs, offset).index == i <==> Prefix(rs, i) <= offset < Prefix(rs, i + 1)
    ensures Prefix(rs, i + 1) - Prefix(rs, i) == rs[i].length
  {
    PrefixStep(rs, i);
    var j := Select(rs, offset).index;
    if Prefix(rs, i) <= offset < Prefix(rs, i + 1) && j != i {
      if j < i {
        PrefixMonotone(rs, j + 1, i);
      }
    }
  }

  /** Offset `offset` lies in the interval of range `i`. */
  predicate InInterval(rs: seq<MemRange>, i: nat, offset: int)
    requires i < |rs|
  {
    Prefix(rs, i) <= offset < Prefix(rs, i + 1)
  }

  /** Two ranges whose intervals share an offset are the same range, when no
      length is negative. */
  lemma {:induction false} IntervalsDisjoint(rs: seq<MemRange>, offset: int, i: nat, j: nat)
    requires NonNegativeLengths(rs)
    requires i < |rs| && j < |rs|
    requires InInterval(rs, i, offset) && InInterval(rs, j, offset)
    ensures i == j
  {
    if i < j {
      PrefixMonotone(rs, i + 1, j);
    } else if j < i {
      PrefixMonotone(rs, j + 1, i);
    }
  }

  /** The intervals `[Prefix(i), Prefix(i + 1))` partition `[0, Total(rs))`
      when no length is negative: they run from 0 to the total, and every
      offset in between lies in exactly one of them, the one `Select` stops at. */
  lemma OffsetIntervalsPartition(rs: seq<MemRange>, offset: int)
    requires NonNegativeLengths(rs)
    requires 0 <= offset < Total(rs)
    ensures Prefix(rs, 0) == 0 && Prefix(rs, |rs|) == Total(rs)
    ensures forall i :: 0 <= i < |rs| ==>
              (InInterval(rs, i, offset) <==> i == Select(rs, offset).index)
  {
    PrefixAll(rs);
    var t := Select(rs, offset);
    assert InInterval(rs, t.index, offset);
    forall i | 0 <= i < |rs| && InInterval(rs, i, offset)
      ensures i == t.index
    {
      IntervalsDisjoint(rs, offset, i, t.index);
    }
  }

  /** The worked example: ranges `(0, 10)` and `(100, 5)`; offset 7 lands at
      address 7 and offset 12 at `100 + (12 - 10)`. */
  lemma TwoRangeExample()
    ensures var rs := [MemRange(0, 10), MemRange(100, 5)];
            Total(rs) == 15 && Select(rs, 7).address == 7 && Select(rs, 12).address == 102
  {
  }
}

=== FILE: region_enumerator.dfy ===
/** `enumerate_readable_ranges` (irradiate.py:20-35) applied to the lines of
    a memory map: every line must match the pattern, the readable ones become
    ranges, in order. Opening the maps file is not part of this model; the
    lines are a parameter.

    Matching a line has no side effects, so the model first matches every
    line (`ParseLines`) and then walks the results in order (`Collect`),
    stopping at the first failed match as the loop of irradiate.py does. */
module RegionEnumerator {
  import opened Results
  import opened Hex
  import opened MapsParser
  import opened MemRanges

  /** The outcome of matching one line. */
  type Parsed = Result<MapsFields, LineFault>

  /** The line at `index` (counted from zero) does not match the pattern;
      the whole enumeration is abandoned. */
  datatype EnumError = MalformedLine(index: nat, fault: LineFault)

  /** `perms.startswith("r")`. */
  predicate IsReadable(f: MapsFields): (b: bool)
    ensures b <==> "r" <= f.perms
  {
    |f.perms| > 0 && f.perms[0] == 'r'
  }

  predicate IsReadableParsed(p: Parsed) {
    p.Ok? && IsReadable(p.value)
  }

  /** Every successful match holds well-formed groups. */
  predicate AllWellFormed(ps: seq<Parsed>) {
    forall i :: 0 <= i < |ps| && ps[i].Ok? ==> WellFormed(ps[i].value)
  }

  /** `MemRange(start, end - start)` from the hex groups: `start` is
      `int(start_hex, 16)` and the length is not required to be positive. */
  function ToRange(f: MapsFields): (r: MemRange)
    requires WellFormed(f)
    ensures r.start == Value(f.startHex) && r.start + r.length == Value(f.endHex)
    ensures r.length > 0 <==> Value(f.startHex) < Value(f.endHex)
  {
    MemRange(Value(f.startHex), Value(f.endHex) - Value(f.startHex))
  }

  /** The match result of every line, in order. */
  function ParseLines(lines: seq<string>): (ps: seq<Parsed>)
    ensures |ps| == |lines|
    ensures forall i :: 0 <= i < |lines| ==> ps[i] == ParseLine(lines[i])
    ensures AllWellFormed(ps)
  {
    seq(|lines|, i requires 0 <= i < |lines| => ParseLine(lines[i]))
  }

  /** The loop body over match results: the first failure aborts, readable
      lines are kept, the others skipped. */
  function Collect(ps: seq<Parsed>): (r: Result<seq<MemRange>, EnumError>)
    requires AllWellFormed(ps)
    ensures r.Ok? ==> |r.value| <= |ps|
    ensures r.Err? ==> r.error.index < |ps|
    decreases |ps|
  {
    if |ps| == 0 then Ok([])
    else
      var last := |ps| - 1;
      assert AllWellFormed(ps[..last]) by {
        assert forall i :: 0 <= i < last ==> ps[..last][i] == ps[i];
      }
      match Collect(ps[..last])
      case Err(e) => Err(e)
      case Ok(rs) =>
        match ps[last]
        case Err(fault) => Err(MalformedLine(last, fault))
        case Ok(f) => if IsReadable(f) then Ok(rs + [ToRange(f)]) else Ok(rs)
  }

  /** The readable ranges of a memory map, or the first line that does not match. */
  function Enumerate(lines: seq<string>): (r: Result<seq<MemRange>, EnumError>)
    ensures r.Ok? ==> |r.value| <= |lines|
    ensures r.Ok? ==> forall i :: 0 <= i < |lines| ==> ParseLine(lines[i]).Ok?
    ensures r.Err? ==> r.error.index < |lines| && ParseLine(lines[r.error.index]) == Err(r.error.fault)
  {
    var ps := ParseLines(lines);
    CollectFailsAtFirstError(ps);
    Collect(ps)
  }

  /** Positions of the readable results, in increasing order. */
  function ReadableIndices(ps: seq<Parsed>): (idx: seq<nat>)
    ensures forall j :: 0 <= j < |idx| ==> idx[j] < |ps| && IsReadableParsed(ps[idx[j]])
    ensures forall j, k :: 0 <= j < k < |idx| ==> idx[j] < idx[k]
    ensures forall i :: 0 <= i < |ps| && IsReadableParsed(ps[i]) ==> i in idx
    decreases |ps|
  {
    if |ps| == 0 then []
    else
      var last := |ps| - 1;
      var prev := ReadableIndices(ps[..last]);
      assert forall i :: 0 <= i < last ==> ps[..last][i] == ps[i];
      if IsReadableParsed(ps[last]) then prev + [last] else prev
  }

  /** `Collect` fails exactly when some result is a failure, and then reports
      the first one. */
  lemma {:induction false} CollectFailsAtFirstError(ps: seq<Parsed>)
    requires AllWellFormed(ps)
    ensures Collect(ps).Err? <==> exists i :: 0 <= i < |ps| && ps[i].Err?
    ensures Collect(ps).Err? ==>
              var e := Collect(ps).error;
              && ps[e.index] == Err(e.fault)
              && forall i :: 0 <= i < e.index ==> ps[i].Ok?
    decreases |ps|
  {
    if |ps| > 0 {
      var last := |ps| - 1;
      var init := ps[..last];
      assert forall i :: 0 <= i < last ==> init[i] == ps[i];
      CollectFailsAtFirstError(init);
      if Collect(init).Err? {
        var i :| 0 <= i < |init| && init[i].Err?;
        assert ps[i].Err?;
      }
    }
  }

  /** A successful `Collect` holds one range per readable result, in order. */
  lemma {:induction false} CollectKeepsReadableInOrder(ps: seq<Parsed>)
    requires AllWellFormed(ps) && Collect(ps).Ok?
    ensures var rs := Collect(ps).value;
            var idx := ReadableIndices(ps);
            && |rs| == |idx|
            && forall j :: 0 <= j < |rs| ==> rs[j] == ToRange(ps[idx[j]].value)
    decreases |ps|
  {
    if |ps| > 0 {
      var last := |ps| - 1;
      var init := ps[..last];
      assert forall i :: 0 <= i < last ==> init[i] == ps[i];
      CollectKeepsReadableInOrder(init);
      var rs, idx := Collect(init).value, ReadableIndices(init);
      var rs', idx' := Collect(ps).value, ReadableIndices(ps);
      if IsReadableParsed(ps[last]) {
        assert rs' == rs + [ToRange(ps[last].value)];
        assert idx' == idx + [last];
      } else {
        assert rs' == rs;
        assert idx' == idx;
      }
      forall j | 0 <= j < |rs|
        ensures rs'[j] == ToRange(ps[idx'[j]].value)
      {
        assert idx'[j] == idx[j] < last;
        assert init[idx[j]] == ps[idx[j]];
      }
    }
  }

  /** Enumeration fails exactly when some line does not match, and then it
      reports the first such line and why it broke off. */
  lemma EnumerateFailsAtFirstMalformed(lines: seq<string>)
    ensures Enumerate(lines).Err? <==> exists i :: 0 <= i < |lines| && ParseLine(lines[i]).Err?
    ensures Enumerate(lines).Err? ==>
              var e := Enumerate(lines).error;
              && e.index < |lines|
              && ParseLine(lines[e.index]) == Err(e.fault)
              && forall i :: 0 <= i < e.index ==> ParseLine(lines[i]).Ok?
  {
    var ps := ParseLines(lines);
    CollectFailsAtFirstError(ps);
    if exists i :: 0 <= i < |lines| && ParseLine(lines[i]).Err? {
      var i :| 0 <= i < |lines| && ParseLine(lines[i]).Err?;
      assert ps[i].Err?;
    }
  }

  /** A malformed line anywhere aborts the enumeration: it is not skipped,
      even when every other line is readable. */
  lemma MalformedLineAborts(lines: seq<string>, i: nat)
    requires i < |lines| && ParseLine(lines[i]).Err?
    ensures Enumerate(lines).Err?
    ensures Enumerate(lines).error.index <= i
  {
    EnumerateFailsAtFirstMalformed(lines);
  }

  /** Positions of the lines that match and whose permissions start with `r`. */
  function ReadableLines(lines: seq<string>): (idx: seq<nat>)
    ensures forall j :: 0 <= j < |idx| ==>
              idx[j] < |lines| && ParseLine(lines[idx[j]]).Ok? && IsReadable(ParseLine(lines[idx[j]]).value)
    ensures forall j, k :: 0 <= j < k < |idx| ==> idx[j] < idx[k]
    ensures forall i :: 0 <= i < |lines| && ParseLine(lines[i]).Ok? && IsReadable(ParseLine(lines[i]).value) ==> i in idx
  {
    var ps := ParseLines(lines);
    var idx := ReadableIndices(ps);
    assert forall i :: 0 <= i < |lines| ==> ps[i] == ParseLine(lines[i]);
    idx
  }

  /** A successful enumeration holds exactly the readable lines, in input
      order, each as `MemRange(start, end - start)` of its own hex fields. */
  lemma EnumerateKeepsReadableInOrder(lines: seq<string>)
    requires Enumerate(lines).Ok?
    ensures var rs := Enumerate(lines).value;
            var idx := ReadableLines(lines);
            && |rs| == |idx|
            && forall j :: 0 <= j < |rs| ==>
                 var f := ParseLine(lines[idx[j]]).value;
                 && Matches(lines[idx[j]], f)
                 && rs[j].start == Value(f.startHex)
                 && rs[j].length == Value(f.endHex) - Value(f.startHex)
  {
    var ps := ParseLines(lines);
    CollectKeepsReadableInOrder(ps);
    var rs := Enumerate(lines).value;
    var idx := ReadableLines(lines);
    forall j | 0 <= j < |rs|
      ensures var f := ParseLine(lines[idx[j]]).value;
              && Matches(lines[idx[j]], f)
              && rs[j].start == Value(f.startHex)
              && rs[j].length == Value(f.endHex) - Value(f.startHex)
    {
      ParseLineSound(lines[idx[j]]);
    }
  }
}

=== FILE: results.dfy ===
/** Success/failure values used in place of the exception the fault injector
    relies on when a memory-map line does not match its pattern. */
module Results {

  /** Either a value or the reason there is none. */
  datatype Result<+T, +E> = Ok(value: T) | Err(error: E) {

    predicate IsFailure() {
      Err?
    }

    function PropagateFailure<U>(): Result<U, E>
      requires Err?
    {
      Err(error)
    }

    function Extract(): T
      requires Ok?
    {
      value
    }
  }
}
